=== FILE: README.md ===
# MilkNet dapp front-end: session and page decision logic in Dafny

MilkNet's browser front-end lets farmers list milk batches and lets buyers
order and confirm them through a wallet-connected smart contract. Most of the
front-end is presentation. This project models the decision logic inside it
as immutable records and pure functions:

- **The wallet session manager** (`Web3Provider`). The session is a record of
  the account, whether a contract client exists, the network name, the
  published network error, the user role and the paused flag. Each of
  `disconnectWallet`, `connectWallet`, `initWeb3`, `registerUser` and the
  `chainChanged` / `accountsChanged` handlers is a transition. The
  `switchNetwork` decision tree is modelled as the list of wallet requests it
  issues and the error it throws. The `NETWORK_CONFIG` and `NETWORK_DETAILS`
  tables and the hex chain-id text live in `Networks`.
- **The farmer dashboard**: the active-batch filter (owner ignoring case, flag
  bit 0x1 set, flag bit 0x2 clear, expiry strictly after the current second),
  the load gating, the view selection, and the reputation card and its stars.
- **The header**: role-dependent navigation links, the network toggle, the
  account abbreviation, the switch label, the error banner and the connect
  button's progress flag.
- **The route table**: `ProtectedRoute`, and the table as a function from a
  path and a role to a page or a redirect home.
- **The buyer pages**: the `confirmDelivery` list update, order loading, the
  dashboard view, and the registration form's submit flow.

Wallet and contract answers are inputs. Examples are the granted accounts,
the network reported by `getNetwork`, and whether the signer and the
`batchCounter` verification read settled. Others are how each wallet request
settled, the chain reads, and transaction confirmations. Nothing is called.
The current time is a parameter in milliseconds.

Each handler runs as one atomic step. The session's consistency relation
(`Web3Session.Consistent`) is proved over arbitrary sequences of actions and
wallet events. A stronger relation one might expect is that a contract client
is present iff an account is connected and the network is supported. The code
does not keep it, and lemmas exhibit traces from the mounted state that break
it:

- an allowed `chainChanged` with no account connected creates a contract;
- an empty `accountsChanged` keeps the contract and the network name, so it
  is not a disconnect;
- a connect whose network check fails leaves the account set;
- an unsupported `chainChanged` keeps the old network name.

The role written to localStorage is never read back; the session starts with
a null role (src/contexts/Web3Context.js:34).

## Model

| member | source | states |
|---|---|---|
| Networks.TablesAgree | src/contexts/Web3Context.js:7-27 | The config and details tables list the same two chains, and each details entry's `chainId` is the `'0x' + hex` text a switch request writes for that chain |
| Networks.AllowedHexIffSupported | src/contexts/Web3Context.js:124-125 | The `chainChanged` allow-list admits a chain's hex id exactly when the config table supports that chain, since distinct ids never share hex text |
| Networks.ChainIdHexParses | src/contexts/Web3Context.js:89 | Parsing back the `'0x' + id.toString(16)` text of any chain id, as the header does with `parseInt(.., 16)`, yields the id |
| Web3Session.DisconnectWallet | src/contexts/Web3Context.js:37-42 | Clears account, contract, network name and network error; role and paused flag unchanged; result is consistent |
| Web3Session.InitWeb3 | src/contexts/Web3Context.js:59-83 | Succeeds iff the chain is 11155111 or 4202 and the verification read succeeds. Success publishes that chain's configured name, a contract and no error. Every failure drops the contract, empties the name, leaves the network error alone and throws "Failed to initialize Web3: " followed by the unsupported-network text for unknown chains, or by the verification read's own message. The account is never touched |
| Web3Session.ConnectWallet | src/contexts/Web3Context.js:44-57 | Without a provider, throws "MetaMask not installed!" with the state unchanged. A rejected account request is rethrown with the state unchanged. Otherwise the first account is stored before network init. Success publishes the chain's configured name, a contract and no error. A failed init leaves the account set, with no contract and an empty name, and rethrows the init's message: the unsupported-network text, or the verification read's message, after the "Failed to initialize Web3: " prefix |
| Web3Session.HandleChainChanged | src/contexts/Web3Context.js:123-136 | A hex id outside the allow-list publishes the unsupported-network banner and drops the contract, keeping account and network name. An allowed id clears the error iff re-init succeeds. Otherwise it publishes the init's exact failure message, "Failed to initialize Web3: " followed by the unsupported-network text or the verification read's message, with no contract |
| Web3Session.HandleAccountsChanged | src/contexts/Web3Context.js:138-147 | Stores the first account, or '' for an empty list. Only a non-empty account re-inits, publishing the init's exact failure message if it fails. An empty list leaves contract, network name and error untouched |
| Web3Session.RegisterUser | src/contexts/Web3Context.js:117-120 | Sets the role and changes no other field |
| Web3Session.SwitchNetwork | src/contexts/Web3Context.js:85-115 | The first request switches to `'0x' + hex(target)`, and is the only request when it succeeds. An add-chain request, carrying the target's details, is issued iff the switch failed with code 4902 and the target has details. After a successful add, a second switch to the same hex id follows, and its error, if any, is what is thrown. It throws nothing iff the switch succeeded, or the add and the second switch both did. A failed add is rethrown after two requests. Other errors are rethrown unchanged after one request. 4902 without details throws "Network details not found". No session field is an output |
| Web3Session.RunKeepsConsistent | src/contexts/Web3Context.js:37-147 | Every sequence of actions and wallet events keeps: name empty or configured, contract implies a name, error implies no contract |
| Web3Session.ReachableConsistent | src/contexts/Web3Context.js:30-35 | Every state reachable from the mounted state is consistent |
| Web3Session.RoleChangesOnlyByRegister | src/contexts/Web3Context.js:117-120 | Without a `registerUser` step, no action or event changes the role or the paused flag |
| Web3Session.UnsupportedThenSupportedRecovers | src/contexts/Web3Context.js:123-135 | An unsupported chain event publishes an error and drops the contract. A following event for a supported chain that verifies clears the error and restores the contract with that chain's name |
| Web3Session.ContractWithoutAccount | src/contexts/Web3Context.js:123-135 | A trace from the mounted state reaches a contract with an empty account |
| Web3Session.EmptyAccountsIsNotDisconnect | src/contexts/Web3Context.js:138-147 | A trace reaches a state where an empty accounts event keeps the contract and differs from a disconnect |
| Web3Session.FailedConnectKeepsAccount | src/contexts/Web3Context.js:49-56 | A one-event trace whose only event is a connect that throws ends with the account set and no contract |
| Web3Session.StaleNameAfterUnsupportedChain | src/contexts/Web3Context.js:125-127 | A trace reaches name 'Sepolia' with no contract and the unsupported-network error |
| FarmerDashboard.FarmerBatches | src/components/farmers/Dashboard.js:32-38 | Every kept batch is owned by the account ignoring case, has bit 0x1 set and bit 0x2 clear, and expires after the current second. Every such input batch is kept. The result is an order-preserving subsequence of the input |
| FarmerDashboard.FarmerBatchesCounts | src/components/farmers/Dashboard.js:32-38 | The filtered list holds every copy of an active batch that the input holds, and no copy of any other batch |
| FarmerDashboard.FarmerBatchesAppend | src/components/farmers/Dashboard.js:32-38 | Filtering a concatenation is concatenating the filtered parts, so each batch is decided on its own and order is kept |
| FarmerDashboard.FarmerBatchesIdempotent | src/components/farmers/Dashboard.js:32-38 | Filtering the filtered list changes nothing |
| FarmerDashboard.HigherFlagBitsIrrelevant | src/components/farmers/Dashboard.js:35-36 | Two flag values that agree on their two low bits get the same active and deleted decisions |
| FarmerDashboard.UnexpiredInMilliseconds | src/components/farmers/Dashboard.js:37 | `expiryDate > floor(now/1000)` iff now, in milliseconds, is before `expiryDate * 1000`, so expiry at the current second is excluded |
| FarmerDashboard.OwnerMatchIgnoresCase | src/components/farmers/Dashboard.js:34 | Lower-casing the owner address and the account does not change the owner decision |
| FarmerDashboard.LoadFarmerData | src/components/farmers/Dashboard.js:24-54 | Loading ends iff contract and account are both present. Without them, or after a failed read, the stored data and count are unchanged. A successful read stores the profile and the filtered batches, and the count equals their number |
| FarmerDashboard.ViewOf | src/components/farmers/Dashboard.js:56-160 | The loading view shows iff loading. "Unable to load" shows iff not loading and there is no data. The overview shows the stored count and the reputation label of the stored profile's rating |
| FarmerDashboard.FirstLoadViews | src/components/farmers/Dashboard.js:16-68 | From the mounted state: a missing contract or account keeps the loading view, a failed read gives "Unable to load", and a successful read shows the filtered count |
| FarmerDashboard.ReputationLabel | src/components/farmers/Dashboard.js:155 | Rating 0 and only rating 0 reads 'New'. Any other rating's label parses back, with `parseInt`, to the rating, and is a digit string without a leading zero followed by "/5" |
| FarmerDashboard.StarsFollowRating | src/components/farmers/Dashboard.js:348-349 | Star i of five is filled iff i < rating, so 'New' fills none |
| Header.NavLinks | src/components/Header.jsx:16-31 | Always starts with Home, Marketplace, About Us. The farmer link is present iff the role is 'farmer' and the buyer link iff the role is 'buyer'. Never both, at most four links. Any other role, the null one included, gets exactly the three base links |
| Header.NavLinksAreAdmitted | src/components/Header.jsx:22-31 | Every link shown to a role opens a page for that role under the route table, not a redirect |
| Header.ToggleTarget | src/components/Header.jsx:45-46 | The target is always a supported chain, and it is 4202 exactly when the current chain is 11155111 |
| Header.ToggleTwice | src/components/Header.jsx:46 | Toggling twice from a supported chain returns to it |
| Header.HandleNetworkSwitch | src/components/Header.jsx:44-48 | Requests the toggled chain's hex id. An add-chain request is made exactly on a 4902 rejection, because the target always has details |
| Header.SwitchFromSupportedChain | src/components/Header.jsx:45-47 | From the wallet's hex id of either supported chain, the button requests the other supported chain |
| Header.Abbreviate | src/components/Header.jsx:99 | The first min(6, n) characters, then '...', then the last min(4, n) characters; 13 characters for accounts of ten or more |
| Header.SwitchLabel | src/components/Header.jsx:108 | Names 'Lisk Testnet' iff the network name is 'Sepolia', otherwise 'Sepolia' |
| Header.LabelAgreesWhenNameIsCurrent | src/components/Header.jsx:105-108 | When the network name is that of the wallet's current supported chain, the label names Lisk iff the button requests Lisk |
| Header.StaleLabelMisnamesTarget | src/components/Header.jsx:105-108 | A trace whose last event moves the wallet to chain '0x1' ends with no contract and the name still 'Sepolia', so the label offers Lisk Testnet while the button, reading that chain id, requests Sepolia |
| Header.SwitchLabelFor | src/components/Header.jsx:105-108 | Corrected label: it names Lisk Testnet iff the button requests 4202, and Sepolia iff it requests 11155111 |
| Header.CorrectedLabelKeepsAgreement | src/components/Header.jsx:108 | The corrected label equals the written one whenever the network name is current |
| Header.BannerText | src/components/Header.jsx:149-151 | The banner shows iff the local error or the network error is a non-empty string. A non-empty local error takes precedence |
| Header.Dismiss | src/components/Header.jsx:152-155 | Dismissing clears only the local error |
| Header.DismissLeavesNetworkError | src/components/Header.jsx:149-155 | After a dismissal the banner shows exactly the network error, if any |
| Header.HandleConnect | src/components/Header.jsx:33-42 | Connecting is set while waiting and cleared after both success and failure. A failure records the thrown message, for example "MetaMask not installed!" or a rejection's own message. While waiting, only the connecting flag has changed. An init failure records exactly the message `connectWallet` throws: "Failed to initialize Web3: " followed by the unsupported-network text or the verification read's message. A success leaves any earlier error in place |
| AppRoutes.ProtectedRoute | src/App.js:18-24 | Renders the children iff the role equals the required one, otherwise redirects to '/' |
| AppRoutes.Route | src/App.js:43-75 | '/', '/about', '/marketplace', '/register-farmer' and '/register-buyer' render the home, about, marketplace, farmer registration and buyer registration pages whatever the role. '/farmer' may only render the farmer dashboard and '/buyer' only the buyer dashboard. '/farmer' renders iff the role is 'farmer' and '/buyer' iff it is 'buyer'. A dashboard is only ever rendered for its role. Unmatched paths redirect to '/' |
| AppRoutes.PublicRoutesIgnoreRole | src/App.js:45-64 | '/', '/about', '/marketplace', '/register-farmer' and '/register-buyer' give the same result for every role |
| AppRoutes.NoRoleAdmitsNoDashboard | src/App.js:18-24 | With the initial null role no path renders a dashboard |
| AppRoutes.RedirectSettles | src/App.js:74 | Following a redirect always lands on a rendered page |
| BuyerDashboard.MarkDelivered | src/components/buyer/Dashboard.js:37-39 | Length and order kept. Each order keeps id, farmer, quantity and price. An order is delivered afterwards iff it was delivered before or has the confirmed id |
| BuyerDashboard.MarkDeliveredIdempotent | src/components/buyer/Dashboard.js:37-39 | Marking an id twice equals marking it once |
| BuyerDashboard.DeliveredOrderUnchanged | src/components/buyer/Dashboard.js:37-39 | If every order with the id is already delivered, the list is unchanged |
| BuyerDashboard.ConfirmDelivery | src/components/buyer/Dashboard.js:33-43 | A failed transaction leaves the orders unchanged. A confirmed one sets the delivered flag on exactly the matching orders and changes nothing else |
| BuyerDashboard.LoadOrders | src/components/buyer/Dashboard.js:10-31 | Without a contract or an account, or after a rejected read, nothing changes. Otherwise the read orders are stored and loading ends |
| BuyerDashboard.LoadingEndsOnlyAfterGatedLoad | src/components/buyer/Dashboard.js:12-28 | In any sequence of loads and confirmations, loading ends only if some load ran with a contract and an account and its read resolved |
| BuyerDashboard.ViewOf | src/components/buyer/Dashboard.js:45-81 | "Access Denied" iff the role is not 'buyer', whatever the orders or loading. Loading iff buyer and loading. "No orders" iff buyer, loaded and the list is empty; cards iff buyer, loaded and the list is non-empty. Card i shows order i, reads "Delivered" iff it is delivered, and offers the confirm button iff not delivered |
| BuyerDashboard.ConfirmHidesButton | src/components/buyer/Dashboard.js:68-75 | After a confirmed delivery no card of that order offers the button |
| BuyerRegistration.HandleSubmit | src/components/buyer/Registration.js:11-28 | Without a contract: error 'Please connect your wallet', no registration call, session unchanged. With one: the call carries name and location, and submit is disabled while pending and re-enabled after. The role becomes 'buyer' only on confirmation. A failure shows its message and leaves the session unchanged. The typed name and location are never changed, so a failed submission can be resent as typed |
| BuyerRegistration.LandingAsWritten | src/components/buyer/Registration.js:21-23 | As written, the full page load after a confirmed registration lands on a redirect to '/' |
| BuyerRegistration.Landing | src/components/buyer/Registration.js:21-23 | Corrected: navigating in-app after a confirmed registration renders the buyer dashboard |
| BuyerRegistration.RefusedSubmitKeepsGuard | src/components/buyer/Registration.js:13-16 | A submission refused for lack of a contract leaves the '/buyer' guard's decision unchanged |

## Left out

- The ethers provider, signer, `Contract` construction and the ABI are opaque. A contract client is a boolean. The signer request and the `batchCounter` verification read are one settled outcome.
- Listener registration and teardown for the wallet's `chainChanged` and `accountsChanged` events are not modelled. Each handler runs as one atomic step, and interleavings of asynchronous completions are not modelled, stale React closures included.
- The role's copy in `localStorage` is not modelled, because nothing in the code reads it back.
- The `isPaused` effect is not modelled: it mirrors a contract read and gates nothing. The paused field is carried and never written.
- An `eth_requestAccounts` reply with no accounts stores JavaScript `undefined`. The model stores ''; nothing in the code tells the two apart.
- A rejected `provider.getNetwork()` has no input of its own. It has the same effect as a supported chain whose verification read fails with that message, and is modelled that way.
- `Number(...)` conversions of chain ids and expiry dates above 2^53 lose precision in JavaScript. The model uses exact integers.
- Flags, expiry dates, ratings and chain ids are non-negative integers, as the contract and the wallet produce them. Bit tests are written as arithmetic on them.
- `toLowerCase` is modelled on ASCII letters only, which is what hex addresses contain.
- `parseInt` is modelled without leading blanks or a sign, which never occur in the strings it is given here.
- Route matching is exact string equality. The router's case-insensitive and trailing-slash matching is not modelled.
- `ethers.formatUnits` price formatting is not modelled: the price is kept as the text it produced.
- `fetchBatches` and `useOrders` are not modelled because their code is not part of this model. Their results are inputs.
- JSX layout, styling, animation, tabs, menus, the expired-batches panel, console logging and `window.location` navigation are not modelled, except where navigation decides a route (finding 1).
- `ConnectionChecker` only displays whether an account and a provider are present, and is not modelled.

## Findings

| source | as written | input that shows it | evidently intended | confidence | as-written member | corrected member |
|---|---|---|---|---|---|---|
| src/components/buyer/Registration.js:21-23 | After `registerUser('buyer')` the form sets `window.location.href = '/buyer'`. That full page load mounts a new session whose role is null (src/contexts/Web3Context.js:34), and the stored copy is never read, so the '/buyer' guard redirects home | any submission with a contract whose transaction is confirmed | the registered buyer lands on the buyer dashboard | not executed; high for the code as written | BuyerRegistration.LandingAsWritten | BuyerRegistration.Landing |
| src/components/Header.jsx:105-108 | The label is chosen from the session's network name, but the request is chosen from the wallet's chain id. An unsupported chain event keeps the old name, and a failed init empties it | connect on Sepolia, then the wallet moves to chain 0x1: the menu reads "Switch to Lisk Testnet" and the button requests Sepolia | the label names the chain the button requests | not executed; medium | Header.SwitchLabel, Header.StaleLabelMisnamesTarget | Header.SwitchLabelFor |

=== FILE: app_routes.dfy ===
/** The route table of `App` (src/App.js) as a function from the requested
    path and the session's role to what the router shows: a page, or a
    redirect to the home page. Paths are matched as exact strings. */
module AppRoutes {
  import opened Outcomes

  datatype Page =
    | HomePage
    | AboutPage
    | MarketplacePage
    | FarmerRegistrationPage
    | FarmerDashboardPage
    | BuyerRegistrationPage
    | BuyerDashboardPage

  datatype RouteResult = Render(page: Page) | Redirect(to: string)

  /** The routes anyone may open. */
  const PublicPaths: seq<string> := ["/", "/about", "/marketplace", "/register-farmer", "/register-buyer"]

  /** The routes that only a role may open. */
  const GuardedPaths: seq<string> := ["/farmer", "/buyer"]

  /** `ProtectedRoute`: the guarded page for a matching role, otherwise home. */
  function ProtectedRoute(role: string, userRole: Option<string>, page: Page): (r: RouteResult)
    ensures r.Render? <==> userRole == Some(role)
    ensures r.Render? ==> r.page == page
    ensures r.Redirect? ==> r.to == "/"
  {
    if userRole != Some(role) then Redirect("/") else Render(page)
  }

  predicate IsDashboard(p: Page)
  {
    p == FarmerDashboardPage || p == BuyerDashboardPage
  }

  /** The `<Routes>` table, with the catch-all redirect last. */
  function Route(path: string, userRole: Option<string>): (r: RouteResult)
    ensures path in PublicPaths ==> r.Render? && !IsDashboard(r.page)
    ensures path == "/" ==> r == Render(HomePage)
    ensures path == "/about" ==> r == Render(AboutPage)
    ensures path == "/marketplace" ==> r == Render(MarketplacePage)
    ensures path == "/register-farmer" ==> r == Render(FarmerRegistrationPage)
    ensures path == "/register-buyer" ==> r == Render(BuyerRegistrationPage)
    ensures path == "/farmer" && r.Render? ==> r.page == FarmerDashboardPage
    ensures path == "/buyer" && r.Render? ==> r.page == BuyerDashboardPage
    ensures path == "/farmer" ==> (r.Render? <==> userRole == Some("farmer"))
    ensures path == "/buyer" ==> (r.Render? <==> userRole == Some("buyer"))
    ensures r.Render? && r.page == FarmerDashboardPage ==> userRole == Some("farmer")
    ensures r.Render? && r.page == BuyerDashboardPage ==> userRole == Some("buyer")
    ensures path !in PublicPaths && path !in GuardedPaths ==> r == Redirect("/")
    ensures r.Redirect? ==> r.to == "/"
  {
    if path == "/" then Render(HomePage)
    else if path == "/about" then Render(AboutPage)
    else if path == "/marketplace" then Render(MarketplacePage)
    else if path == "/register-farmer" then Render(FarmerRegistrationPage)
    else if path == "/farmer" then ProtectedRoute("farmer", userRole, FarmerDashboardPage)
    else if path == "/register-buyer" then Render(BuyerRegistrationPage)
    else if path == "/buyer" then ProtectedRoute("buyer", userRole, BuyerDashboardPage)
    else Redirect("/")
  }

  /** A public route shows the same page whatever the role. */
  lemma PublicRoutesIgnoreRole(path: string, role1: Option<string>, role2: Option<string>)
    requires path in PublicPaths
    ensures Route(path, role1) == Route(path, role2)
  {
  }

  /** With no role, which is how a session starts, no dashboard is ever shown. */
  lemma NoRoleAdmitsNoDashboard(path: string)
    ensures Route(path, None).Render? ==> !IsDashboard(Route(path, None).page)
  {
  }

  /** Redirects never chain: following one always ends on a page. */
  lemma RedirectSettles(path: string, userRole: Option<string>)
    ensures Route(path, userRole).Redirect? ==> Route(Route(path, userRole).to, userRole).Render?
  {
  }
}

=== FILE: buyer_dashboard.dfy ===
/** The buyer dashboard (src/components/buyer/Dashboard.js): the local order
    list, the delivery confirmation that updates it, the order-loading gate
    and the view the component selects. Chain reads and the confirmation
    transaction are inputs. */
module BuyerDashboard {
  import opened Outcomes

  /** An order as the dashboard stores it; the price is already formatted text. */
  datatype Order = Order(orderId: int, farmer: string, quantity: int, totalPrice: string, isDelivered: bool)

  /** Two orders that agree on everything but the delivery flag. */
  predicate SameExceptDelivery(a: Order, b: Order)
  {
    a.orderId == b.orderId && a.farmer == b.farmer && a.quantity == b.quantity && a.totalPrice == b.totalPrice
  }

  /** `orders.map(o => o.orderId === orderId ? { ...o, isDelivered: true } : o)`. */
  function MarkDelivered(orders: seq<Order>, orderId: int): (r: seq<Order>)
    ensures |r| == |orders|
    ensures forall i :: 0 <= i < |r| ==> SameExceptDelivery(r[i], orders[i])
    ensures forall i :: 0 <= i < |r| ==> (r[i].isDelivered <==> orders[i].isDelivered || orders[i].orderId == orderId)
    decreases |orders|
  {
    if orders == [] then []
    else
      var o := orders[0];
      [if o.orderId == orderId then o.(isDelivered := true) else o] + MarkDelivered(orders[1..], orderId)
  }

  /** Marking twice is marking once. */
  lemma MarkDeliveredIdempotent(orders: seq<Order>, orderId: int)
    ensures MarkDelivered(MarkDelivered(orders, orderId), orderId) == MarkDelivered(orders, orderId)
  {
  }

  /** Confirming an order that is already delivered leaves the list as it was. */
  lemma DeliveredOrderUnchanged(orders: seq<Order>, orderId: int)
    requires forall i :: 0 <= i < |orders| && orders[i].orderId == orderId ==> orders[i].isDelivered
    ensures MarkDelivered(orders, orderId) == orders
  {
  }

  /** `confirmDelivery`: the list is updated only once the transaction is
      confirmed; a failure (including a missing contract) changes nothing. */
  function ConfirmDelivery(orders: seq<Order>, orderId: int, tx: Outcome): (r: seq<Order>)
    ensures tx.Fail? ==> r == orders
    ensures |r| == |orders|
    ensures forall i :: 0 <= i < |r| ==> SameExceptDelivery(r[i], orders[i])
    ensures forall i :: 0 <= i < |r| ==>
      (r[i].isDelivered <==> orders[i].isDelivered || (tx.Pass? && orders[i].orderId == orderId))
  {
    if tx.Pass? then MarkDelivered(orders, orderId) else orders
  }

  /** The dashboard state: the stored orders and the loading flag. */
  datatype DashboardState = DashboardState(orders: seq<Order>, loading: bool)

  const InitialState: DashboardState := DashboardState([], true)

  /** `loadOrders`: with a contract and an account, store the orders read and
      end loading; without either nothing happens. A rejected read is not
      caught, so it too leaves the state as it was. */
  function LoadOrders(d: DashboardState, hasContract: bool, account: string, read: Result<seq<Order>>): (r: DashboardState)
    ensures !(hasContract && account != "") || read.Err? ==> r == d
    ensures hasContract && account != "" && read.Ok? ==> r.orders == read.value && !r.loading
  {
    if hasContract && account != "" && read.Ok? then DashboardState(read.value, false) else d
  }

  /** What can happen to the dashboard: an order load, or a delivery confirmation. */
  datatype Action =
    | Load(hasContract: bool, account: string, read: Result<seq<Order>>)
    | Confirm(orderId: int, tx: Outcome)

  function Step(d: DashboardState, a: Action): DashboardState
  {
    match a
    case Load(c, acct, read) => LoadOrders(d, c, acct, read)
    case Confirm(id, tx) => d.(orders := ConfirmDelivery(d.orders, id, tx))
  }

  function Run(d: DashboardState, actions: seq<Action>): DashboardState
    decreases |actions|
  {
    if actions == [] then d else Run(Step(d, actions[0]), actions[1..])
  }

  /** A load that actually ran: contract and account present, read resolved. */
  predicate GatedLoad(a: Action)
  {
    a.Load? && a.hasContract && a.account != "" && a.read.Ok?
  }

  /** Loading ends only after a load that ran with a contract and an account. */
  lemma {:induction false} LoadingEndsOnlyAfterGatedLoad(d: DashboardState, actions: seq<Action>)
    requires d.loading
    requires !Run(d, actions).loading
    ensures exists i :: 0 <= i < |actions| && GatedLoad(actions[i])
    decreases |actions|
  {
    var a := actions[0];
    if GatedLoad(a) {
      assert GatedLoad(actions[0]);
    } else {
      LoadingEndsOnlyAfterGatedLoad(Step(d, a), actions[1..]);
      var i :| 0 <= i < |actions[1..]| && GatedLoad(actions[1..][i]);
      assert GatedLoad(actions[i + 1]);
    }
  }

  /** One order's card: its status text and whether it offers Confirm Delivery. */
  datatype OrderCard = OrderCard(order: Order, status: string, showConfirm: bool)

  datatype View = AccessDenied | LoadingOrders | NoOrders | OrderCards(cards: seq<OrderCard>)

  function Card(o: Order): OrderCard
  {
    OrderCard(o, if o.isDelivered then "Delivered" else "Pending", !o.isDelivered)
  }

  /** The rendered dashboard: the role gate first, then loading, then the list. */
  function ViewOf(userRole: Option<string>, d: DashboardState): (v: View)
    ensures v.AccessDenied? <==> userRole != Some("buyer")
    ensures v.LoadingOrders? <==> userRole == Some("buyer") && d.loading
    ensures v.NoOrders? <==> userRole == Some("buyer") && !d.loading && |d.orders| == 0
    ensures v.OrderCards? <==> userRole == Some("buyer") && !d.loading && |d.orders| > 0
    ensures v.OrderCards? ==>
      |v.cards| == |d.orders| > 0
      && forall i :: 0 <= i < |v.cards| ==>
           v.cards[i].order == d.orders[i]
           && (v.cards[i].status == "Delivered" <==> d.orders[i].isDelivered)
           && (v.cards[i].showConfirm <==> !d.orders[i].isDelivered)
  {
    if userRole != Some("buyer") then AccessDenied
    else if d.loading then LoadingOrders
    else if |d.orders| == 0 then NoOrders
    else OrderCards(seq(|d.orders|, i requires 0 <= i < |d.orders| => Card(d.orders[i])))
  }

  /** After a confirmed delivery no card of that order offers the button again. */
  lemma ConfirmHidesButton(userRole: Option<string>, d: DashboardState, orderId: int)
    ensures var v := ViewOf(userRole, d.(orders := ConfirmDelivery(d.orders, orderId, Pass)));
            v.OrderCards? ==>
              forall i :: 0 <= i < |v.cards| && v.cards[i].order.orderId == orderId ==> !v.cards[i].showConfirm
  {
  }
}

=== FILE: buyer_registration.dfy ===
/** The buyer registration form (src/components/buyer/Registration.js): the
    submit guard, the registration transaction's outcomes, and where the
    registered buyer lands. */
module BuyerRegistration {
  import opened Outcomes
  import Web3Session
  import AppRoutes

  datatype Form = Form(name: string, location: string, isLoading: bool, error: Option<string>)

  const NoWalletMessage: string := "Please connect your wallet"

  /** The arguments of the `registerConsumer` transaction. */
  datatype Registration = Registration(name: string, location: string)

  /** One submission: the form while the transaction is awaited, the form and
      session after it, and the registration call sent, if any. */
  datatype Submission = Submission(pending: Form, form: Form, session: Web3Session.Session, sent: Option<Registration>)

  /** The submit button is enabled unless a submission is in flight. */
  predicate SubmitEnabled(f: Form)
  {
    !f.isLoading
  }

  /** `handleSubmit`: refuse without a contract; otherwise send the
      registration, and on confirmation record the role 'buyer'; a failure
      shows its message. Either way loading ends. */
  function HandleSubmit(f: Form, s: Web3Session.Session, tx: Outcome): (r: Submission)
    ensures !s.hasContract ==>
      r.sent.None? && r.form == f.(error := Some(NoWalletMessage)) && r.session == s
    ensures s.hasContract ==>
      r.sent == Some(Registration(f.name, f.location)) && !SubmitEnabled(r.pending) && SubmitEnabled(r.form)
    ensures s.hasContract && tx.Pass? ==>
      r.session.userRole == Some("buyer") && r.session == s.(userRole := Some("buyer")) && r.form.error == f.error
    ensures s.hasContract && tx.Fail? ==> r.form.error == Some(tx.message) && r.session == s
    ensures r.session.userRole != s.userRole ==> s.hasContract && tx.Pass?
    ensures s.hasContract ==> r.pending == f.(isLoading := true)
    ensures r.pending.name == f.name && r.pending.location == f.location
    ensures r.form.name == f.name && r.form.location == f.location
  {
    if !s.hasContract then Submission(f, f.(error := Some(NoWalletMessage)), s, None)
    else
      var pending := f.(isLoading := true);
      var sent := Some(Registration(f.name, f.location));
      match tx
      case Pass => Submission(pending, pending.(isLoading := false), Web3Session.RegisterUser(s, "buyer"), sent)
      case Fail(m) => Submission(pending, pending.(error := Some(m), isLoading := false), s, sent)
  }

  /** As written: after a confirmed registration the page assigns
      `window.location.href = '/buyer'`, a full page load that mounts a fresh
      session, whose role is null. The route it lands on, if it navigates. */
  function LandingAsWritten(f: Form, s: Web3Session.Session, tx: Outcome): (r: Option<AppRoutes.RouteResult>)
    ensures r.Some? <==> s.hasContract && tx.Pass?
    ensures r.Some? ==> r.value == AppRoutes.Redirect("/")
  {
    if s.hasContract && tx.Pass? then Some(AppRoutes.Route("/buyer", Web3Session.Initial.userRole)) else None
  }

  /** Corrected: navigating within the running app keeps the session, so the
      registered buyer is admitted to the dashboard. */
  function Landing(f: Form, s: Web3Session.Session, tx: Outcome): (r: Option<AppRoutes.RouteResult>)
    ensures r.Some? <==> s.hasContract && tx.Pass?
    ensures r.Some? ==> r.value == AppRoutes.Render(AppRoutes.BuyerDashboardPage)
  {
    var sub := HandleSubmit(f, s, tx);
    if s.hasContract && tx.Pass? then Some(AppRoutes.Route("/buyer", sub.session.userRole)) else None
  }

  /** Without a wallet connection the buyer dashboard stays closed: a refused
      submission leaves the role, and so the route guard, as they were. */
  lemma RefusedSubmitKeepsGuard(f: Form, s: Web3Session.Session, tx: Outcome)
    requires !s.hasContract
    ensures AppRoutes.Route("/buyer", HandleSubmit(f, s, tx).session.userRole) == AppRoutes.Route("/buyer", s.userRole)
  {
  }
}

=== FILE: farmer_dashboard.dfy ===
/** The decision logic of the farmer dashboard (src/components/farmers/Dashboard.js):
    which fetched batches count as the farmer's active batches, what a load
    leaves in the component's state, which view that state selects, and how
    the reputation card renders a rating. The clock is a parameter. */
module FarmerDashboard {
  import opened Outcomes
  import Text

  /** A batch as the batch fetcher returns it: owner, status flags and
      expiry instant in whole seconds. */
  datatype Batch = Batch(batchId: nat, farmerAddress: string, flags: nat, expiryDate: nat)

  /** Owner match, ignoring the case of the hex letters. */
  predicate OwnedBy(b: Batch, account: string)
  {
    Text.Lower(b.farmerAddress) == Text.Lower(account)
  }

  /** `(flags & 0x1) === 0x1`. */
  predicate ActiveBitSet(flags: nat)
  {
    flags % 2 == 1
  }

  /** `(flags & 0x2) !== 0`. */
  predicate DeletedBitSet(flags: nat)
  {
    (flags / 2) % 2 == 1
  }

  /** `expiryDate > Math.floor(now / 1000)`, with `now` in milliseconds. */
  predicate Unexpired(b: Batch, nowMs: nat)
  {
    b.expiryDate > nowMs / 1000
  }

  /** The filter predicate of `loadFarmerData`. */
  predicate IsActiveBatchOf(b: Batch, account: string, nowMs: nat)
  {
    OwnedBy(b, account) && ActiveBitSet(b.flags) && !DeletedBitSet(b.flags) && Unexpired(b, nowMs)
  }

  /** `xs` is `ys` with some elements dropped and the rest kept in order. */
  predicate IsSubsequence(xs: seq<Batch>, ys: seq<Batch>)
    decreases |ys|
  {
    if xs == [] then true
    else if ys == [] then false
    else (xs[0] == ys[0] && IsSubsequence(xs[1..], ys[1..])) || IsSubsequence(xs, ys[1..])
  }

  /** `allBatches.filter(...)`: the farmer's active, unexpired batches in fetch order. */
  function FarmerBatches(all: seq<Batch>, account: string, nowMs: nat): (r: seq<Batch>)
    ensures forall i :: 0 <= i < |r| ==> IsActiveBatchOf(r[i], account, nowMs)
    ensures forall i :: 0 <= i < |all| && IsActiveBatchOf(all[i], account, nowMs) ==> all[i] in r
    ensures IsSubsequence(r, all)
    decreases |all|
  {
    if all == [] then []
    else
      var rest := FarmerBatches(all[1..], account, nowMs);
      if IsActiveBatchOf(all[0], account, nowMs) then [all[0]] + rest else rest
  }

  /** The filter keeps every copy of an active batch and no copy of any other. */
  lemma {:induction false} FarmerBatchesCounts(all: seq<Batch>, account: string, nowMs: nat, b: Batch)
    ensures multiset(FarmerBatches(all, account, nowMs))[b]
         == if IsActiveBatchOf(b, account, nowMs) then multiset(all)[b] else 0
    decreases |all|
  {
    if all != [] {
      FarmerBatchesCounts(all[1..], account, nowMs, b);
      assert all == [all[0]] + all[1..];
    }
  }

  /** Filtering distributes over concatenation, so each batch is decided on its own. */
  lemma {:induction false} FarmerBatchesAppend(xs: seq<Batch>, ys: seq<Batch>, account: string, nowMs: nat)
    ensures FarmerBatches(xs + ys, account, nowMs)
         == FarmerBatches(xs, account, nowMs) + FarmerBatches(ys, account, nowMs)
    decreases |xs|
  {
    if xs == [] {
      assert xs + ys == ys;
    } else {
      assert (xs + ys)[0] == xs[0];
      assert (xs + ys)[1..] == xs[1..] + ys;
      FarmerBatchesAppend(xs[1..], ys, account, nowMs);
      var a := FarmerBatches(xs[1..], account, nowMs);
      var b := FarmerBatches(ys, account, nowMs);
      assert ([xs[0]] + a) + b == [xs[0]] + (a + b);
    }
  }

  /** Filtering the filtered list changes nothing. */
  lemma {:induction false} FarmerBatchesIdempotent(all: seq<Batch>, account: string, nowMs: nat)
    ensures FarmerBatches(FarmerBatches(all, account, nowMs), account, nowMs) == FarmerBatches(all, account, nowMs)
    decreases |all|
  {
    if all != [] {
      FarmerBatchesIdempotent(all[1..], account, nowMs);
      var rest := FarmerBatches(all[1..], account, nowMs);
      if IsActiveBatchOf(all[0], account, nowMs) {
        assert ([all[0]] + rest)[1..] == rest;
      }
    }
  }

  /** Only the two low flag bits decide: flags that agree on them decide alike. */
  lemma HigherFlagBitsIrrelevant(f: nat, g: nat)
    requires f % 4 == g % 4
    ensures ActiveBitSet(f) <==> ActiveBitSet(g)
    ensures DeletedBitSet(f) <==> DeletedBitSet(g)
  {
  }

  /** A batch is unexpired exactly while the clock, in milliseconds, is before
      its expiry second: a batch expiring at the current second is excluded. */
  lemma UnexpiredInMilliseconds(b: Batch, nowMs: nat)
    ensures Unexpired(b, nowMs) <==> nowMs < b.expiryDate * 1000
  {
  }

  /** A batch whose owner differs only in letter case is treated alike. */
  lemma OwnerMatchIgnoresCase(b: Batch, account: string)
    ensures OwnedBy(b, account) <==> OwnedBy(b.(farmerAddress := Text.Lower(b.farmerAddress)), Text.Lower(account))
  {
    Text.LowerIdempotent(b.farmerAddress);
    Text.LowerIdempotent(account);
  }

  // ---------------------------------------------------------------------
  // Loading and the selected view.
  // ---------------------------------------------------------------------

  /** What `contract.farmers(account)` returned, as far as the view uses it. */
  datatype FarmerProfile = FarmerProfile(name: string, rating: nat)

  /** `{ ...data, batches: farmerBatches }`. */
  datatype FarmerData = FarmerData(profile: FarmerProfile, batches: seq<Batch>)

  datatype DashboardState = DashboardState(isLoading: bool, farmerData: Option<FarmerData>, totalBatches: nat)

  const InitialState: DashboardState := DashboardState(true, None, 0)

  /** The two chain reads of one load: the farmer record and every batch. */
  datatype ChainReads = ChainReads(profile: FarmerProfile, allBatches: seq<Batch>)

  /** `loadFarmerData`: mark loading; with a contract and an account, read,
      filter, and store; a failed read stores nothing; either way loading ends. */
  function LoadFarmerData(d: DashboardState, hasContract: bool, account: string,
                          chainReads: Result<ChainReads>, nowMs: nat): (r: DashboardState)
    ensures !r.isLoading <==> hasContract && account != ""
    ensures r.isLoading || chainReads.Err? ==> r.farmerData == d.farmerData && r.totalBatches == d.totalBatches
    ensures !r.isLoading && chainReads.Ok? ==>
      r.farmerData.Some? && r.farmerData.value.profile == chainReads.value.profile
      && r.farmerData.value.batches == FarmerBatches(chainReads.value.allBatches, account, nowMs)
      && r.totalBatches == |r.farmerData.value.batches|
  {
    var loading := d.(isLoading := true);
    if !(hasContract && account != "") then loading
    else
      match chainReads
      case Err(_) => loading.(isLoading := false)
      case Ok(cr) =>
        var batches := FarmerBatches(cr.allBatches, account, nowMs);
        DashboardState(false, Some(FarmerData(cr.profile, batches)), |batches|)
  }

  /** The three screens of the component. */
  datatype View = LoadingView | UnavailableView | OverviewView(activeBatches: nat, reputation: string)

  function ViewOf(d: DashboardState): (v: View)
    ensures v.LoadingView? <==> d.isLoading
    ensures v.UnavailableView? <==> !d.isLoading && d.farmerData.None?
    ensures v.OverviewView? ==> v.activeBatches == d.totalBatches
    ensures v.OverviewView? ==> v.reputation == ReputationLabel(d.farmerData.value.profile.rating)
  {
    if d.isLoading then LoadingView
    else if d.farmerData.None? then UnavailableView
    else OverviewView(d.totalBatches, ReputationLabel(d.farmerData.value.profile.rating))
  }

  /** From the mounted state: without a contract or an account the page keeps
      loading, a failed read selects "Unable to load", and a successful read
      shows the number of active batches. */
  lemma FirstLoadViews(hasContract: bool, account: string, chainReads: Result<ChainReads>, nowMs: nat)
    ensures var v := ViewOf(LoadFarmerData(InitialState, hasContract, account, chainReads, nowMs));
            && (!(hasContract && account != "") ==> v.LoadingView?)
            && (hasContract && account != "" && chainReads.Err? ==> v.UnavailableView?)
            && (hasContract && account != "" && chainReads.Ok? ==>
                  v.OverviewView? && v.activeBatches == |FarmerBatches(chainReads.value.allBatches, account, nowMs)|)
  {
  }

  // ---------------------------------------------------------------------
  // Reputation card.
  // ---------------------------------------------------------------------

  /** `rating ? `${rating}/5` : 'New'`. */
  function ReputationLabel(rating: nat): (s: string)
    ensures rating == 0 <==> s == "New"
    ensures rating > 0 ==> Text.ParseLeading(s, 10) == Some(rating)
    ensures rating > 0 ==> |s| >= 3 && s[|s| - 2..] == "/5"
    ensures rating > 0 ==> Text.AllDigitsIn(s[..|s| - 2], 10) && Text.DigitValue(s[0]) > 0
  {
    if rating == 0 then "New"
    else
      Text.RenderParses(rating, 10, "/5");
      Text.Decimal(rating) + "/5"
  }

  /** Star `i` is filled when `i < parseInt(value)`; NaN fills nothing. */
  function StarFilled(i: nat, value: string): bool
  {
    match Text.ParseLeading(value, 10)
    case None => false
    case Some(n) => i < n
  }

  /** The five stars of the card. */
  function StarRow(value: string): (row: seq<bool>)
    ensures |row| == 5
  {
    seq(5, i requires 0 <= i < 5 => StarFilled(i, value))
  }

  /** The card fills exactly the first `rating` stars (all five from five up),
      and a new farmer's card fills none. */
  lemma StarsFollowRating(rating: nat)
    ensures forall i :: 0 <= i < 5 ==> (StarRow(ReputationLabel(rating))[i] <==> i < rating)
  {
    if rating == 0 {
      assert Text.ParseLeading("New", 10).None?;
    }
  }
}

=== FILE: header.dfy ===
/** The decisions the page header makes (src/components/Header.jsx): which
    navigation links a role sees, which chain the switch button requests,
    how an account and the switch label are shown, which error the banner
    shows, and how the connect button tracks a connection attempt. */
module Header {
  import opened Outcomes
  import Text
  import Networks
  import Web3Session
  import AppRoutes

  datatype NavLink = NavLink(path: string, name: string)

  const BaseNavLinks: seq<NavLink> :=
    [NavLink("/", "Home"), NavLink("/marketplace", "Marketplace"), NavLink("/about", "About Us")]
  const FarmerLink: NavLink := NavLink("/farmer", "Farmer Dashboard")
  const BuyerLink: NavLink := NavLink("/buyer", "Buyer Dashboard")

  /** `navLinks`: the three public links, then the dashboard of the role. */
  function NavLinks(userRole: Option<string>): (links: seq<NavLink>)
    ensures 3 <= |links| <= 4 && links[..3] == BaseNavLinks
    ensures FarmerLink in links <==> userRole == Some("farmer")
    ensures BuyerLink in links <==> userRole == Some("buyer")
    ensures !(FarmerLink in links && BuyerLink in links)
    ensures userRole != Some("farmer") && userRole != Some("buyer") ==> links == BaseNavLinks
  {
    var withFarmer := if userRole == Some("farmer") then BaseNavLinks + [FarmerLink] else BaseNavLinks;
    if userRole == Some("buyer") then withFarmer + [BuyerLink] else withFarmer
  }

  /** Every link the header offers a role opens a page for that role rather
      than bouncing back home. */
  lemma NavLinksAreAdmitted(userRole: Option<string>)
    ensures forall l :: l in NavLinks(userRole) ==> AppRoutes.Route(l.path, userRole).Render?
  {
  }

  /** `currentChainId === 11155111 ? 4202 : 11155111`; None stands for NaN. */
  function ToggleTarget(current: Option<nat>): (t: nat)
    ensures Networks.IsSupported(t)
    ensures t == Networks.LiskId <==> current == Some(Networks.SepoliaId)
  {
    if current == Some(Networks.SepoliaId) then Networks.LiskId else Networks.SepoliaId
  }

  /** Toggling twice from a supported chain comes back to it. */
  lemma ToggleTwice(c: nat)
    requires Networks.IsSupported(c)
    ensures ToggleTarget(Some(ToggleTarget(Some(c)))) == c
  {
  }

  /** `handleNetworkSwitch`: parse the wallet's hex chain id, pick the other
      chain, and run `switchNetwork` on it. */
  function HandleNetworkSwitch(walletChainId: string, switchReply: Option<Web3Session.RpcError>,
                               addReply: Option<Web3Session.RpcError>,
                               retryReply: Option<Web3Session.RpcError>): (r: Web3Session.SwitchRun)
    ensures |r.requests| >= 1 && r.requests[0] == Web3Session.SwitchChain(Networks.ChainIdHex(ToggleTarget(Networks.ParseChainHex(walletChainId))))
    ensures Web3Session.AddsChain(r) <==> Web3Session.IsUnknownChain(switchReply)
  {
    var target := ToggleTarget(Networks.ParseChainHex(walletChainId));
    Web3Session.SwitchNetwork(target, switchReply, addReply, retryReply)
  }

  /** From either supported chain, the switch button asks the wallet for the other one. */
  lemma SwitchFromSupportedChain(c: nat, switchReply: Option<Web3Session.RpcError>,
                                 addReply: Option<Web3Session.RpcError>, retryReply: Option<Web3Session.RpcError>)
    requires Networks.IsSupported(c)
    ensures var t := ToggleTarget(Networks.ParseChainHex(Networks.ChainIdHex(c)));
            t != c && Networks.IsSupported(t)
            && HandleNetworkSwitch(Networks.ChainIdHex(c), switchReply, addReply, retryReply).requests[0]
               == Web3Session.SwitchChain(Networks.ChainIdHex(t))
  {
    Networks.ChainIdHexParses(c);
  }

  function Min(a: nat, b: nat): nat
  {
    if a < b then a else b
  }

  /** The first `n` characters: `s.slice(0, n)`. */
  function Take(s: string, n: nat): string
  {
    if |s| <= n then s else s[..n]
  }

  /** The last `n` characters: `s.slice(-n)`. */
  function TakeLast(s: string, n: nat): string
  {
    if |s| <= n then s else s[|s| - n..]
  }

  /** `${account.slice(0, 6)}...${account.slice(-4)}`. */
  function Abbreviate(account: string): (a: string)
    ensures var k, m := Min(|account|, 6), Min(|account|, 4);
      |a| == k + 3 + m && a[..k] == account[..k] && a[k..k + 3] == "..." && a[k + 3..] == account[|account| - m..]
    ensures |account| >= 10 ==> |a| == 13
  {
    Take(account, 6) + "..." + TakeLast(account, 4)
  }

  // ---------------------------------------------------------------------
  // The switch label. As written it is chosen from the session's network
  // name while the request is chosen from the wallet's chain id; the two
  // disagree whenever the name is stale or empty.
  // ---------------------------------------------------------------------

  /** `Switch to {networkName === 'Sepolia' ? 'Lisk Testnet' : 'Sepolia'}`, as written. */
  function SwitchLabel(networkName: string): (caption: string)
    ensures caption == "Switch to Lisk Testnet" <==> networkName == Networks.NameOf(Networks.SepoliaId)
    ensures caption == "Switch to Lisk Testnet" || caption == "Switch to Sepolia"
  {
    "Switch to " + (if networkName == "Sepolia" then "Lisk Testnet" else "Sepolia")
  }

  /** The label's destination matches the request only while the network name
      is the configured name of the wallet's current chain. */
  lemma LabelAgreesWhenNameIsCurrent(c: nat)
    requires Networks.IsSupported(c)
    ensures SwitchLabel(Networks.NameOf(c)) == "Switch to Lisk Testnet"
            <==> ToggleTarget(Networks.ParseChainHex(Networks.ChainIdHex(c))) == Networks.LiskId
  {
    Networks.ChainIdHexParses(c);
  }

  /** After the wallet leaves Sepolia for an unsupported chain, the session
      keeps the name 'Sepolia': the menu offers "Switch to Lisk Testnet" but
      the button, reading the chain id of that last wallet event, requests
      Sepolia. */
  lemma StaleLabelMisnamesTarget() returns (es: seq<Web3Session.Event>, walletChainId: string)
    ensures |es| > 0 && es[|es| - 1].ChainChanged? && es[|es| - 1].chainIdHex == walletChainId
    ensures !Web3Session.Run(Web3Session.Initial, es).hasContract
    ensures SwitchLabel(Web3Session.Run(Web3Session.Initial, es).networkName) == "Switch to Lisk Testnet"
    ensures ToggleTarget(Networks.ParseChainHex(walletChainId)) == Networks.SepoliaId
  {
    es := Web3Session.StaleNameAfterUnsupportedChain();
    walletChainId := es[|es| - 1].chainIdHex;
    assert Text.Render(1, 16) == "1";
    assert walletChainId == Networks.ChainIdHex(1);
    Networks.ChainIdHexParses(1);
  }

  /** The label as evidently intended: it names the chain the button will request. */
  function SwitchLabelFor(walletChainId: string): (caption: string)
    ensures caption == "Switch to Lisk Testnet" <==> ToggleTarget(Networks.ParseChainHex(walletChainId)) == Networks.LiskId
    ensures caption == "Switch to Sepolia" <==> ToggleTarget(Networks.ParseChainHex(walletChainId)) == Networks.SepoliaId
  {
    if ToggleTarget(Networks.ParseChainHex(walletChainId)) == Networks.LiskId then "Switch to Lisk Testnet" else "Switch to Sepolia"
  }

  /** The corrected label coincides with the written one whenever the session's
      network name is that of the wallet's current chain. */
  lemma CorrectedLabelKeepsAgreement(c: nat)
    requires Networks.IsSupported(c)
    ensures SwitchLabelFor(Networks.ChainIdHex(c)) == SwitchLabel(Networks.NameOf(c))
  {
    Networks.ChainIdHexParses(c);
  }

  // ---------------------------------------------------------------------
  // Error banner and the connect button.
  // ---------------------------------------------------------------------

  /** The header's own state: connect in progress, and the last connect error. */
  datatype HeaderUi = HeaderUi(connecting: bool, error: Option<string>)

  /** `error || networkError`: the banner text, if the banner shows. */
  function BannerText(localError: Option<string>, networkError: Option<string>): (b: Option<string>)
    ensures b.Some? <==> Truthy(localError) || Truthy(networkError)
    ensures Truthy(localError) ==> b == localError
    ensures !Truthy(localError) && Truthy(networkError) ==> b == networkError
  {
    if Truthy(localError) then localError else if Truthy(networkError) then networkError else None
  }

  /** The banner's close button clears only the header's own error. */
  function Dismiss(h: HeaderUi): (r: HeaderUi)
    ensures r.error.None? && r.connecting == h.connecting
  {
    h.(error := None)
  }

  /** After a dismissal the banner shows exactly the session's network error, if any. */
  lemma DismissLeavesNetworkError(h: HeaderUi, networkError: Option<string>)
    ensures BannerText(Dismiss(h).error, networkError).Some? <==> Truthy(networkError)
    ensures Truthy(networkError) ==> BannerText(Dismiss(h).error, networkError) == networkError
  {
  }

  /** A connection attempt from the header: the state while it is awaited,
      the state after it settled, and the session it left. */
  datatype ConnectRun = ConnectRun(pending: HeaderUi, settled: HeaderUi, session: Web3Session.Session)

  /** `handleConnect`: mark connecting, run `connectWallet`, record a failure's
      message, and always clear the connecting mark. */
  function HandleConnect(h: HeaderUi, s: Web3Session.Session, providerPresent: bool,
                         request: Result<seq<string>>, net: Web3Session.NetworkReading, probe: Outcome): (r: ConnectRun)
    ensures r.pending == h.(connecting := true) && !r.settled.connecting
    ensures !providerPresent ==> r.settled.error == Some(Web3Session.NotInstalledMessage) && r.session == s
    ensures providerPresent && request.Err? ==> r.settled.error == Some(request.message) && r.session == s
    ensures providerPresent && request.Ok? && Networks.IsSupported(net.chainId) && probe.Pass? ==>
      r.session.hasContract && r.settled.error == h.error
    ensures providerPresent && request.Ok? && !(Networks.IsSupported(net.chainId) && probe.Pass?) ==>
      !r.session.hasContract && r.settled.error.Some? && Web3Session.InitFailurePrefix <= r.settled.error.value
    ensures providerPresent && request.Ok? && !Networks.IsSupported(net.chainId) ==>
      r.settled.error == Some(Web3Session.InitFailurePrefix + Web3Session.UnsupportedMessage(net))
    ensures providerPresent && request.Ok? && Networks.IsSupported(net.chainId) && probe.Fail? ==>
      r.settled.error == Some(Web3Session.InitFailurePrefix + probe.message)
  {
    var step := Web3Session.ConnectWallet(s, providerPresent, request, net, probe);
    var pending := h.(connecting := true);
    var settled := if step.thrown.Some? then pending.(error := step.thrown, connecting := false)
                   else pending.(connecting := false);
    ConnectRun(pending, settled, step.session)
  }
}

=== FILE: networks.dfy ===
/** The two static network tables of the session manager (`NETWORK_CONFIG`
    and `NETWORK_DETAILS`) and the hexadecimal chain-id text the wallet
    speaks. Both tables have one entry for Sepolia (chain 11155111) and one
    for the Lisk testnet (chain 4202). */
module Networks {
  import opened Outcomes
  import Text

  const SepoliaId: nat := 11155111
  const LiskId: nat := 4202

  /** A `NETWORK_CONFIG` entry. The contract address is read from a build-time
      environment variable; the model keeps the variable's name. */
  datatype NetworkConfig = NetworkConfig(name: string, contractAddressVar: string)

  datatype Currency = Currency(name: string, symbol: string, decimals: nat)

  /** A `NETWORK_DETAILS` entry: the parameters of an add-chain request. */
  datatype ChainDetails = ChainDetails(
    chainIdHex: string,
    chainName: string,
    nativeCurrency: Currency,
    rpcUrls: seq<string>,
    blockExplorerUrls: seq<string>)

  /** `NETWORK_CONFIG[chainId]`. */
  function Config(chainId: int): Option<NetworkConfig>
  {
    if chainId == SepoliaId then Some(NetworkConfig("Sepolia", "REACT_APP_SEPOLIA_CONTRACT_ADDRESS"))
    else if chainId == LiskId then Some(NetworkConfig("LISK Testnet", "REACT_APP_LISK_CONTRACT_ADDRESS"))
    else None
  }

  /** `NETWORK_DETAILS[chainId]`. */
  function Details(chainId: int): Option<ChainDetails>
  {
    if chainId == SepoliaId then
      Some(ChainDetails("0xaa36a7", "Sepolia Testnet", Currency("Sepolia Ether", "SEP", 18),
                        ["https://rpc.sepolia.org"], ["https://sepolia.etherscan.io"]))
    else if chainId == LiskId then
      Some(ChainDetails("0x106a", "Lisk Testnet", Currency("Lisk", "LSK", 18),
                        ["https://testnet-rpc.lisk.com"], ["https://testnet-explorer.lisk.com"]))
    else None
  }

  predicate IsSupported(chainId: int)
  {
    Config(chainId).Some?
  }

  /** The display name a supported chain is published under. */
  function NameOf(chainId: int): string
    requires IsSupported(chainId)
  {
    Config(chainId).value.name
  }

  /** A name some `NETWORK_CONFIG` entry carries. */
  predicate IsConfiguredName(name: string)
  {
    name == NameOf(SepoliaId) || name == NameOf(LiskId)
  }

  /** The chain ids the `chainChanged` handler accepts, as the wallet writes them. */
  const AllowedChainHex: seq<string> := ["0xaa36a7", "0x106a"]

  /** `'0x' + id.toString(16)`, the form of a chain id in a switch request. */
  function ChainIdHex(id: nat): (h: string)
    ensures |h| > 2 && h[..2] == "0x"
  {
    "0x" + Text.Render(id, 16)
  }

  /** `parseInt(s, 16)`: an optional `0x`/`0X` prefix, then the leading hex
      digits; None stands for NaN. */
  function ParseChainHex(s: string): Option<nat>
  {
    var digits := if |s| >= 2 && s[0] == '0' && (s[1] == 'x' || s[1] == 'X') then s[2..] else s;
    Text.ParseLeading(digits, 16)
  }

  /** Reading back the hex text of a chain id gives the chain id. */
  lemma ChainIdHexParses(id: nat)
    ensures ParseChainHex(ChainIdHex(id)) == Some(id)
  {
    var h := ChainIdHex(id);
    assert h[2..] == Text.Render(id, 16) + [];
    Text.RenderParses(id, 16, []);
  }

  /** The rendered ids of the two supported chains are the wallet's spelling. */
  lemma SupportedHexSpelling()
    ensures ChainIdHex(SepoliaId) == "0xaa36a7"
    ensures ChainIdHex(LiskId) == "0x106a"
  {
    assert Text.Render(10, 16) == "a";
    assert Text.Render(170, 16) == "aa";
    assert Text.Render(2723, 16) == "aa3";
    assert Text.Render(43574, 16) == "aa36";
    assert Text.Render(697194, 16) == "aa36a";
    assert Text.Render(11155111, 16) == "aa36a7";
    assert Text.Render(1, 16) == "1";
    assert Text.Render(16, 16) == "10";
    assert Text.Render(262, 16) == "106";
    assert Text.Render(4202, 16) == "106a";
  }

  /** The two tables list the same chains, and each details entry names its
      chain in the same hex text a switch request writes. */
  lemma TablesAgree(id: nat)
    ensures IsSupported(id) <==> Details(id).Some?
    ensures Details(id).Some? ==> Details(id).value.chainIdHex == ChainIdHex(id)
  {
    SupportedHexSpelling();
  }

  /** The `chainChanged` allow-list admits exactly the hex ids of the chains
      `NETWORK_CONFIG` supports. */
  lemma AllowedHexIffSupported(id: nat)
    ensures ChainIdHex(id) in AllowedChainHex <==> IsSupported(id)
  {
    SupportedHexSpelling();
    if ChainIdHex(id) == ChainIdHex(SepoliaId) {
      assert Text.Render(id, 16) == ChainIdHex(id)[2..];
      assert Text.Render(SepoliaId, 16) == ChainIdHex(SepoliaId)[2..];
      Text.RenderInjective(id, SepoliaId, 16);
    } else if ChainIdHex(id) == ChainIdHex(LiskId) {
      assert Text.Render(id, 16) == ChainIdHex(id)[2..];
      assert Text.Render(LiskId, 16) == ChainIdHex(LiskId)[2..];
      Text.RenderInjective(id, LiskId, 16);
    }
  }
}

=== FILE: outcomes.dfy ===
/** Failure-carrying datatypes shared by every part of the model.

    Every asynchronous wallet or contract call of the application is modelled
    by the value it settled with: an `Outcome` when the awaited promise yields
    nothing of interest, a `Result` when it yields a value. A rejection
    carries the `message` of the thrown error, which is all the application
    ever reads from it. */
module Outcomes {

  /** JavaScript's `null`/`undefined` versus a present value. */
  datatype Option<+T> = None | Some(value: T)

  /** A settled call that yields nothing: resolved, or rejected with a message. */
  datatype Outcome = Pass | Fail(message: string)

  /** A settled call that resolved with a value or rejected with a message. */
  datatype Result<+T> = Ok(value: T) | Err(message: string)

  /** JavaScript truthiness of a nullable string: present and not empty. */
  predicate Truthy(o: Option<string>)
  {
    o.Some? && o.value != ""
  }
}

=== FILE: text.dfy ===
/** The string conversions the application relies on: `Number#toString(radix)`,
    `parseInt(s, radix)` and `String#toLowerCase`, for the inputs they meet here
    (non-negative integers, ASCII text). */
module Text {
  import opened Outcomes

  /** The value of `c` read as a digit (0-9, a-f, A-F), or -1 if it is none. */
  function DigitValue(c: char): int
  {
    if '0' <= c <= '9' then c as int - '0' as int
    else if 'a' <= c <= 'f' then c as int - 'a' as int + 10
    else if 'A' <= c <= 'F' then c as int - 'A' as int + 10
    else -1
  }

  predicate IsDigitIn(c: char, base: nat)
  {
    0 <= DigitValue(c) < base
  }

  predicate AllDigitsIn(s: string, base: nat)
  {
    forall i :: 0 <= i < |s| ==> IsDigitIn(s[i], base)
  }

  predicate ValidBase(base: nat)
  {
    2 <= base <= 16
  }

  /** The lower-case character `Number#toString` writes for digit `d`. */
  function DigitChar(d: nat): (c: char)
    requires d < 16
    ensures DigitValue(c) == d
    ensures !('A' <= c <= 'Z')
  {
    if d < 10 then ('0' as int + d) as char else ('a' as int + d - 10) as char
  }

  /** The division facts the radix conversions rest on. */
  lemma DivModFacts(n: nat, base: nat)
    requires ValidBase(base)
    ensures n == (n / base) * base + n % base
    ensures 0 <= n % base < base
    ensures n >= base ==> 0 < n / base < n
  {
  }

  /** `n.toString(base)` for a non-negative integer: digits only, no leading zero. */
  function Render(n: nat, base: nat): (s: string)
    requires ValidBase(base)
    ensures |s| > 0
    ensures AllDigitsIn(s, base)
    ensures n > 0 ==> DigitValue(s[0]) > 0
    decreases n
  {
    DivModFacts(n, base);
    if n < base then [DigitChar(n)] else Render(n / base, base) + [DigitChar(n % base)]
  }

  /** Decimal rendering, as JavaScript's template literals write a number. */
  function Decimal(n: nat): string
  {
    Render(n, 10)
  }

  /** The number a string of digits denotes, most significant digit first. */
  function DigitsValue(s: string, base: nat): nat
    requires ValidBase(base)
    requires AllDigitsIn(s, base)
  {
    if s == [] then 0 else DigitsValue(s[..|s| - 1], base) * base + DigitValue(s[|s| - 1])
  }

  /** Rendering a number and reading the digits back yields the number. */
  lemma {:induction false} RenderValue(n: nat, base: nat)
    requires ValidBase(base)
    ensures DigitsValue(Render(n, base), base) == n
  {
    if n >= base {
      var s := Render(n, base);
      DivModFacts(n, base);
      assert s[..|s| - 1] == Render(n / base, base);
      RenderValue(n / base, base);
    }
  }

  /** The longest prefix of `s` made of digits of `base`. */
  function LeadingDigits(s: string, base: nat): (p: string)
    requires ValidBase(base)
    ensures p <= s
    ensures AllDigitsIn(p, base)
    ensures |p| < |s| ==> !IsDigitIn(s[|p|], base)
  {
    if s == [] || !IsDigitIn(s[0], base) then [] else [s[0]] + LeadingDigits(s[1..], base)
  }

  /** A digit prefix that runs up to the end of `s` or to a non-digit is the leading-digit prefix. */
  lemma LeadingDigitsUnique(s: string, p: string, base: nat)
    requires ValidBase(base)
    requires p <= s && AllDigitsIn(p, base)
    requires |p| == |s| || !IsDigitIn(s[|p|], base)
    ensures LeadingDigits(s, base) == p
  {
  }

  /** `parseInt(s, base)` for text with no leading blank or sign: the value of
      the leading digits, or None (NaN) when `s` does not start with a digit. */
  function ParseLeading(s: string, base: nat): (r: Option<nat>)
    requires ValidBase(base)
    ensures r.Some? <==> s != [] && IsDigitIn(s[0], base)
  {
    var p := LeadingDigits(s, base);
    if p == [] then None else Some(DigitsValue(p, base))
  }

  /** A rendered number followed by a non-digit (or nothing) parses back to the number. */
  lemma RenderParses(n: nat, base: nat, rest: string)
    requires ValidBase(base)
    requires rest == [] || !IsDigitIn(rest[0], base)
    ensures ParseLeading(Render(n, base) + rest, base) == Some(n)
  {
    var d := Render(n, base);
    assert d <= d + rest;
    LeadingDigitsUnique(d + rest, d, base);
    RenderValue(n, base);
  }

  /** `Number#toString` never writes the same text for two different numbers. */
  lemma RenderInjective(m: nat, n: nat, base: nat)
    requires ValidBase(base)
    requires Render(m, base) == Render(n, base)
    ensures m == n
  {
    RenderValue(m, base);
    RenderValue(n, base);
  }

  /** `toLowerCase` on one character, for the ASCII letters addresses are written in. */
  function LowerChar(c: char): (d: char)
    ensures !('A' <= d <= 'Z')
  {
    if 'A' <= c <= 'Z' then (c as int - 'A' as int + 'a' as int) as char else c
  }

  /** `String#toLowerCase` on ASCII text. */
  function Lower(s: string): (r: string)
    ensures |r| == |s|
    ensures forall i :: 0 <= i < |r| ==> !('A' <= r[i] <= 'Z')
  {
    seq(|s|, i requires 0 <= i < |s| => LowerChar(s[i]))
  }

  /** Lower-casing twice changes nothing more than lower-casing once. */
  lemma LowerIdempotent(s: string)
    ensures Lower(Lower(s)) == Lower(s)
  {
  }
}

=== FILE: web3_session.dfy ===
/** The wallet session manager (`Web3Provider` in src/contexts/Web3Context.js).

    The session is one immutable record; every action and every wallet event
    handler is a pure transition from the record before to the record after.
    Whatever the wallet or the contract answers is an input: the accounts an
    `eth_requestAccounts` request granted, the network `getNetwork` reported,
    and whether the signer and the `batchCounter` verification read settled.
    Each handler runs as one atomic step; interleavings of their asynchronous
    completions are not modelled. */
module Web3Session {
  import opened Outcomes
  import Text
  import Networks

  /** The six state hooks of the provider. The contract client itself is
      opaque and only its presence matters. */
  datatype Session = Session(
    account: string,
    hasContract: bool,
    networkName: string,
    networkError: Option<string>,
    userRole: Option<string>,
    isPaused: bool)

  /** The state the provider mounts with. */
  const Initial: Session := Session("", false, "", None, None, false)

  /** What `provider.getNetwork()` reported: the chain id and the library's name for it. */
  datatype NetworkReading = NetworkReading(chainId: nat, name: string)

  /** A transition that may throw back to its caller: the state it leaves and
      the message of the error it throws, if any. */
  datatype Step = Step(session: Session, thrown: Option<string>)

  const NotInstalledMessage: string := "MetaMask not installed!"
  const InitFailurePrefix: string := "Failed to initialize Web3: "
  const UnsupportedChainBanner: string := "Unsupported network. Please switch to Sepolia or Lisk Testnet."

  /** The fields no wallet transition touches. */
  predicate SameUser(s: Session, r: Session)
  {
    r.userRole == s.userRole && r.isPaused == s.isPaused
  }

  /** The relations between the fields that every transition keeps:
      a network name is empty or configured, a contract comes with a
      network name, and a published network error rules a contract out. */
  predicate Consistent(s: Session)
  {
    && (s.networkName == "" || Networks.IsConfiguredName(s.networkName))
    && (s.hasContract ==> s.networkName != "")
    && (s.networkError.Some? ==> !s.hasContract)
  }

  /** `accounts[0] || ''`; an empty reply (JavaScript's `undefined`) reads as ''. */
  function FirstAccount(accounts: seq<string>): string
  {
    if |accounts| > 0 then accounts[0] else ""
  }

  /** `Unsupported network: ${network.name || chainId}`. */
  function UnsupportedMessage(net: NetworkReading): string
  {
    "Unsupported network: " + (if net.name != "" then net.name else Text.Decimal(net.chainId))
  }

  /** `disconnectWallet`: local reset of the connection fields only. */
  function DisconnectWallet(s: Session): (r: Session)
    ensures r.account == "" && !r.hasContract && r.networkName == "" && r.networkError.None?
    ensures SameUser(s, r)
    ensures Consistent(r)
  {
    s.(account := "", hasContract := false, networkName := "", networkError := None)
  }

  /** `initWeb3`: look the chain up in `NETWORK_CONFIG`, then obtain a signer
      and read `batchCounter` (settled as `probe`). It never writes the
      network error itself: success clears it, failure leaves it alone. */
  function InitWeb3(s: Session, net: NetworkReading, probe: Outcome): (r: Step)
    ensures r.thrown.None? <==> Networks.IsSupported(net.chainId) && probe.Pass?
    ensures r.thrown.None? ==>
      r.session.hasContract && r.session.networkName == Networks.NameOf(net.chainId)
      && r.session.networkError.None?
    ensures r.thrown.Some? ==>
      !r.session.hasContract && r.session.networkName == "" && r.session.networkError == s.networkError
      && InitFailurePrefix <= r.thrown.value
    ensures !Networks.IsSupported(net.chainId) ==> r.thrown == Some(InitFailurePrefix + UnsupportedMessage(net))
    ensures Networks.IsSupported(net.chainId) && probe.Fail? ==> r.thrown == Some(InitFailurePrefix + probe.message)
    ensures r.session.account == s.account && SameUser(s, r.session)
    ensures Consistent(s) ==> Consistent(r.session)
  {
    if !Networks.IsSupported(net.chainId) then
      Step(s.(hasContract := false, networkName := ""), Some(InitFailurePrefix + UnsupportedMessage(net)))
    else
      match probe
      case Pass =>
        Step(s.(hasContract := true, networkName := Networks.NameOf(net.chainId), networkError := None), None)
      case Fail(m) =>
        Step(s.(hasContract := false, networkName := ""), Some(InitFailurePrefix + m))
  }

  /** `connectWallet`: fail without a wallet, otherwise request the accounts,
      store the first one, and initialise the network; any failure after the
      provider check is rethrown unchanged. */
  function ConnectWallet(s: Session, providerPresent: bool, request: Result<seq<string>>,
                         net: NetworkReading, probe: Outcome): (r: Step)
    ensures !providerPresent ==> r.session == s && r.thrown == Some(NotInstalledMessage)
    ensures providerPresent && request.Err? ==> r.session == s && r.thrown == Some(request.message)
    ensures providerPresent && request.Ok? ==>
      r.session.account == FirstAccount(request.value)
      && (r.thrown.None? <==> Networks.IsSupported(net.chainId) && probe.Pass?)
    ensures providerPresent && request.Ok? && r.thrown.Some? ==>
      !r.session.hasContract && r.session.networkName == "" && r.session.networkError == s.networkError
    ensures providerPresent && request.Ok? && !Networks.IsSupported(net.chainId) ==>
      r.thrown == Some(InitFailurePrefix + UnsupportedMessage(net))
    ensures providerPresent && request.Ok? && Networks.IsSupported(net.chainId) && probe.Fail? ==>
      r.thrown == Some(InitFailurePrefix + probe.message)
    ensures r.thrown.None? ==>
      r.session.hasContract && r.session.networkName == Networks.NameOf(net.chainId) && r.session.networkError.None?
    ensures SameUser(s, r.session)
    ensures Consistent(s) ==> Consistent(r.session)
  {
    if !providerPresent then Step(s, Some(NotInstalledMessage))
    else
      match request
      case Err(m) => Step(s, Some(m))
      case Ok(accounts) => InitWeb3(s.(account := FirstAccount(accounts)), net, probe)
  }

  /** `handleChainChanged`: an id outside the allow-list publishes the
      unsupported-network banner and drops the contract; an allowed id clears
      the banner and re-initialises, publishing the failure message if that fails. */
  function HandleChainChanged(s: Session, chainIdHex: string, net: NetworkReading, probe: Outcome): (r: Session)
    ensures chainIdHex !in Networks.AllowedChainHex ==>
      r.networkError == Some(UnsupportedChainBanner) && !r.hasContract && r.networkName == s.networkName
    ensures chainIdHex in Networks.AllowedChainHex ==>
      (r.networkError.None? <==> Networks.IsSupported(net.chainId) && probe.Pass?)
      && (r.hasContract <==> r.networkError.None?)
      && (r.networkError.Some? ==> r.networkName == "" && InitFailurePrefix <= r.networkError.value)
      && (r.hasContract ==> r.networkName == Networks.NameOf(net.chainId))
    ensures chainIdHex in Networks.AllowedChainHex && !Networks.IsSupported(net.chainId) ==>
      r.networkError == Some(InitFailurePrefix + UnsupportedMessage(net))
    ensures chainIdHex in Networks.AllowedChainHex && Networks.IsSupported(net.chainId) && probe.Fail? ==>
      r.networkError == Some(InitFailurePrefix + probe.message)
    ensures r.account == s.account && SameUser(s, r)
    ensures Consistent(s) ==> Consistent(r)
  {
    if chainIdHex !in Networks.AllowedChainHex then
      s.(networkError := Some(UnsupportedChainBanner), hasContract := false)
    else
      var step := InitWeb3(s.(networkError := None), net, probe);
      if step.thrown.Some? then step.session.(networkError := step.thrown) else step.session
  }

  /** `handleAccountsChanged`: store the first account; re-initialise only
      when there is one, publishing the failure message if that fails. An
      empty list touches nothing but the account. */
  function HandleAccountsChanged(s: Session, accounts: seq<string>, net: NetworkReading, probe: Outcome): (r: Session)
    ensures r.account == FirstAccount(accounts)
    ensures FirstAccount(accounts) == "" ==>
      r.hasContract == s.hasContract && r.networkName == s.networkName && r.networkError == s.networkError
    ensures FirstAccount(accounts) != "" ==>
      (r.hasContract <==> Networks.IsSupported(net.chainId) && probe.Pass?)
      && (r.hasContract ==> r.networkName == Networks.NameOf(net.chainId) && r.networkError.None?)
      && (!r.hasContract ==> r.networkName == "" && r.networkError.Some? && InitFailurePrefix <= r.networkError.value)
    ensures FirstAccount(accounts) != "" && !Networks.IsSupported(net.chainId) ==>
      r.networkError == Some(InitFailurePrefix + UnsupportedMessage(net))
    ensures FirstAccount(accounts) != "" && Networks.IsSupported(net.chainId) && probe.Fail? ==>
      r.networkError == Some(InitFailurePrefix + probe.message)
    ensures SameUser(s, r)
    ensures Consistent(s) ==> Consistent(r)
  {
    var first := FirstAccount(accounts);
    var s1 := s.(account := first);
    if first == "" then s1
    else
      var step := InitWeb3(s1, net, probe);
      if step.thrown.Some? then step.session.(networkError := step.thrown) else step.session
  }

  /** `registerUser`: record the role in the session (the copy written to
      local storage is never read back and is not modelled). */
  function RegisterUser(s: Session, role: string): (r: Session)
    ensures r.userRole == Some(role)
    ensures r.account == s.account && r.hasContract == s.hasContract && r.networkName == s.networkName
    ensures r.networkError == s.networkError && r.isPaused == s.isPaused
  {
    s.(userRole := Some(role))
  }

  // ---------------------------------------------------------------------
  // switchNetwork: the request decision tree. It takes no session and
  // returns none: it writes no session field.
  // ---------------------------------------------------------------------

  /** An error a wallet request rejected with; `code` is absent for plain `Error`s. */
  datatype RpcError = RpcError(code: Option<int>, message: string)

  /** A wallet request issued by `switchNetwork`. */
  datatype WalletRequest = SwitchChain(chainIdHex: string) | AddChain(details: Networks.ChainDetails)

  /** The requests issued, in order, and the error thrown to the caller, if any. */
  datatype SwitchRun = SwitchRun(requests: seq<WalletRequest>, thrown: Option<RpcError>)

  /** The wallet's "unrecognised chain" error code. */
  const UnknownChainCode: int := 4902

  predicate IsUnknownChain(e: Option<RpcError>)
  {
    e.Some? && e.value.code == Some(UnknownChainCode)
  }

  predicate AddsChain(r: SwitchRun)
  {
    exists i :: 0 <= i < |r.requests| && r.requests[i].AddChain?
  }

  function DetailsMissingError(target: nat): RpcError
  {
    RpcError(None, "Network details not found for chainId: " + Text.Decimal(target))
  }

  /** `switchNetwork(target)` given how each wallet request settles: the
      switch, and — only after an unknown-chain rejection of a chain with
      known details — the add-chain request and the second switch. */
  function SwitchNetwork(target: nat, switchReply: Option<RpcError>, addReply: Option<RpcError>,
                         retryReply: Option<RpcError>): (r: SwitchRun)
    ensures 1 <= |r.requests| <= 3 && r.requests[0] == SwitchChain(Networks.ChainIdHex(target))
    ensures forall i :: 0 <= i < |r.requests| && r.requests[i].SwitchChain? ==>
      r.requests[i].chainIdHex == Networks.ChainIdHex(target)
    ensures forall i :: 0 <= i < |r.requests| && r.requests[i].AddChain? ==>
      Networks.Details(target) == Some(r.requests[i].details)
    ensures AddsChain(r) <==> IsUnknownChain(switchReply) && Networks.IsSupported(target)
    ensures r.thrown.None? <==>
      switchReply.None? || (IsUnknownChain(switchReply) && Networks.IsSupported(target) && addReply.None? && retryReply.None?)
    ensures switchReply.None? ==> r.requests == [SwitchChain(Networks.ChainIdHex(target))]
    ensures switchReply.Some? && !IsUnknownChain(switchReply) ==> r.thrown == switchReply && |r.requests| == 1
    ensures IsUnknownChain(switchReply) && !Networks.IsSupported(target) ==>
      r.thrown == Some(DetailsMissingError(target)) && |r.requests| == 1
    ensures AddsChain(r) && addReply.Some? ==> r.thrown == addReply && |r.requests| == 2
    ensures AddsChain(r) && addReply.None? ==>
      |r.requests| == 3 && r.requests[2] == SwitchChain(Networks.ChainIdHex(target)) && r.thrown == retryReply
  {
    Networks.TablesAgree(target);
    var first := SwitchChain(Networks.ChainIdHex(target));
    match switchReply
    case None => SwitchRun([first], None)
    case Some(e) =>
      if e.code != Some(UnknownChainCode) then SwitchRun([first], Some(e))
      else
        match Networks.Details(target)
        case None => SwitchRun([first], Some(DetailsMissingError(target)))
        case Some(d) =>
          var r := if addReply.Some? then SwitchRun([first, AddChain(d)], addReply)
                   else SwitchRun([first, AddChain(d), SwitchChain(d.chainIdHex)], retryReply);
          assert r.requests[1].AddChain?;
          r
  }

  // ---------------------------------------------------------------------
  // Traces of actions and wallet events.
  // ---------------------------------------------------------------------

  datatype Event =
    | Connect(providerPresent: bool, request: Result<seq<string>>, net: NetworkReading, probe: Outcome)
    | Disconnect
    | ChainChanged(chainIdHex: string, net: NetworkReading, probe: Outcome)
    | AccountsChanged(accounts: seq<string>, net: NetworkReading, probe: Outcome)
    | Register(role: string)
    | Switch(target: nat, switchReply: Option<RpcError>, addReply: Option<RpcError>, retryReply: Option<RpcError>)

  /** The session after one event; a network switch leaves it as it was
      until the wallet's own `chainChanged` event arrives. */
  function Apply(s: Session, e: Event): Session
  {
    match e
    case Connect(p, req, net, probe) => ConnectWallet(s, p, req, net, probe).session
    case Disconnect => DisconnectWallet(s)
    case ChainChanged(h, net, probe) => HandleChainChanged(s, h, net, probe)
    case AccountsChanged(accts, net, probe) => HandleAccountsChanged(s, accts, net, probe)
    case Register(role) => RegisterUser(s, role)
    case Switch(_, _, _, _) => s
  }

  function Run(s: Session, es: seq<Event>): Session
    decreases |es|
  {
    if es == [] then s else Run(Apply(s, es[0]), es[1..])
  }

  /** Every sequence of actions and events keeps the session consistent. */
  lemma {:induction false} RunKeepsConsistent(s: Session, es: seq<Event>)
    requires Consistent(s)
    ensures Consistent(Run(s, es))
    decreases |es|
  {
    if es != [] {
      RunKeepsConsistent(Apply(s, es[0]), es[1..]);
    }
  }

  /** The mounted state is consistent, so every reachable state is. */
  lemma ReachableConsistent(es: seq<Event>)
    ensures Consistent(Run(Initial, es))
  {
    RunKeepsConsistent(Initial, es);
  }

  predicate IsRegister(e: Event)
  {
    e.Register?
  }

  /** Only `registerUser` writes the role, and nothing writes the paused flag. */
  lemma {:induction false} RoleChangesOnlyByRegister(s: Session, es: seq<Event>)
    requires forall i :: 0 <= i < |es| ==> !IsRegister(es[i])
    ensures Run(s, es).userRole == s.userRole
    ensures Run(s, es).isPaused == s.isPaused
    decreases |es|
  {
    if es != [] {
      assert !IsRegister(es[0]);
      RoleChangesOnlyByRegister(Apply(s, es[0]), es[1..]);
    }
  }

  /** A wallet moved to an unsupported chain and then back to a supported one
      that verifies: the first event publishes an error and drops the
      contract, the second clears the error and restores the contract. */
  lemma UnsupportedThenSupportedRecovers(s: Session, badHex: string, net: NetworkReading, probe: Outcome)
    requires badHex !in Networks.AllowedChainHex
    requires Networks.IsSupported(net.chainId)
    ensures var s1 := HandleChainChanged(s, badHex, net, probe);
            var s2 := HandleChainChanged(s1, Networks.ChainIdHex(net.chainId), net, Pass);
            s1.networkError.Some? && !s1.hasContract
            && s2.networkError.None? && s2.hasContract && s2.networkName == Networks.NameOf(net.chainId)
  {
    Networks.AllowedHexIffSupported(net.chainId);
  }

  // ---------------------------------------------------------------------
  // Relations the code does NOT keep, each shown by a trace from the mount.
  // ---------------------------------------------------------------------

  /** "A contract is present iff an account is connected" fails: an allowed
      `chainChanged` re-initialises even with no account. */
  lemma ContractWithoutAccount() returns (es: seq<Event>)
    ensures Run(Initial, es).hasContract && Run(Initial, es).account == ""
  {
    es := [ChainChanged("0xaa36a7", NetworkReading(Networks.SepoliaId, "sepolia"), Pass)];
    assert Run(Initial, es) == Apply(Initial, es[0]);
  }

  /** An empty `accountsChanged` is not a disconnect: the contract and the
      network name survive it. */
  lemma EmptyAccountsIsNotDisconnect() returns (es: seq<Event>)
    ensures var s := Run(Initial, es);
            var net := NetworkReading(Networks.SepoliaId, "sepolia");
            HandleAccountsChanged(s, [], net, Pass) != DisconnectWallet(s)
            && HandleAccountsChanged(s, [], net, Pass).hasContract
  {
    var net := NetworkReading(Networks.SepoliaId, "sepolia");
    es := [Connect(true, Ok(["0xabc"]), net, Pass)];
    assert Run(Initial, es) == Apply(Initial, es[0]);
  }

  /** A connect whose network check fails leaves the account connected
      without a contract. */
  lemma FailedConnectKeepsAccount() returns (es: seq<Event>)
    ensures Run(Initial, es).account != "" && !Run(Initial, es).hasContract
    ensures |es| == 1 && es[0].Connect?
            && ConnectWallet(Initial, es[0].providerPresent, es[0].request, es[0].net, es[0].probe).thrown.Some?
  {
    es := [Connect(true, Ok(["0xabc"]), NetworkReading(1, "mainnet"), Pass)];
    assert Run(Initial, es) == Apply(Initial, es[0]);
  }

  /** An unsupported `chainChanged` keeps the old network name next to the
      unsupported-network error. */
  lemma StaleNameAfterUnsupportedChain() returns (es: seq<Event>)
    ensures var s := Run(Initial, es);
            s.networkName == "Sepolia" && !s.hasContract && s.networkError == Some(UnsupportedChainBanner)
    ensures |es| == 2 && es[1].ChainChanged? && es[1].chainIdHex == "0x1"
  {
    es := [Connect(true, Ok(["0xabc"]), NetworkReading(Networks.SepoliaId, "sepolia"), Pass),
           ChainChanged("0x1", NetworkReading(1, "mainnet"), Pass)];
    var s1 := Apply(Initial, es[0]);
    assert Run(Initial, es) == Run(s1, es[1..]);
    assert Run(s1, es[1..]) == Apply(s1, es[1]);
  }
}
